=== FILE: README.md ===
# SharedFirebasePreferences in Dafny

A model of the data-shaping core of `SharedFirebasePreferences`, an Android
`SharedPreferences` that mirrors its local cache to a node of a Firebase Realtime Database.
Android, Firebase and threads are replaced by plain values; what remains is:

- **Paths** (`Paths.dfy`): `sanitizeString` (each of `. # $ [ ]` becomes `-`), Java's
  `String.replace`, and `getRoot`, which substitutes the user id and then the name into the
  path pattern, sanitizes the result, and throws `IllegalStateException` when no user is signed in.
- **Values** (`Values.dfy`): the Java classes a preference or a database child can have, and
  the codec between them: a string set is pushed as a list of its elements and a pulled list
  becomes the set of its elements; any other class a pull meets is skipped.
- **Push** (`Push.dfy`): the `PushTask` constructor, which copies the cache, replaces each
  string set by a list in place and removes the omitted keys, giving the map handed to
  `updateChildren`.
- **Pull** (`Pull.dfy`): what `PullTask.onDataChange` writes: the cache is cleared and
  refilled with the decodable children of the snapshot, and the round trips between push and pull.
- **Preferences** (`Preferences.dfy`): the `SharedFirebasePreferences` object (cache, root,
  omit list, and the payloads it has pushed), its `Editor` (`commit` pushes only when the
  wrapped commit succeeds, `apply` always pushes) and `PullTask` with its listener dispatch,
  where each `Exception` a listener throws is caught on its own.
- **Registry** (`Registry.dfy`): the static `sInstances` map and `sPathPattern`;
  `getInstance` creates an instance only for a name not yet registered, keyed by name alone.

Foreign inputs are parameters: the signed-in user (`Option<string>`), the contents of the
local preferences file, the result and effect of the wrapped Android editor's `commit`/`apply`,
the exception (if any) raised while a snapshot is processed and whether it is raised before or inside `apply()`, and what each listener throws.

The code does less than a synchronised cache often does, and the model follows the code:
a push sends the whole cache (no diff and no deletion entries), a commit
makes no per-key notifications of its own, loading is not single-flight, and the registry is
keyed by name only, so after a change of user the same name yields the instance bound to the
first user's node (`Registry.UserSwitchKeepsRoot`).

## Model

| member | source | states |
|---|---|---|
| Values.Decode | lib/src/main/java/sharefirebasepreferences/crysxd/de/lib/SharedFirebasePreferences.java:535-548 | a child is kept exactly when it is a String, Long, Integer, Boolean, Float or List; scalars are kept as they are; a List becomes the set of its elements |
| Values.DecodeEncoded | lib/src/main/java/sharefirebasepreferences/crysxd/de/lib/SharedFirebasePreferences.java:615-621 | decoding the value a push produced for a cached value gives that value back (a set round-trips through its list) |
| Values.ListingLength | lib/src/main/java/sharefirebasepreferences/crysxd/de/lib/SharedFirebasePreferences.java:619 | the list built from a string set has exactly as many entries as the set |
| Values.DecodeListSize | lib/src/main/java/sharefirebasepreferences/crysxd/de/lib/SharedFirebasePreferences.java:547 | decoding a list drops duplicates: the set is no larger than the list, and as large when the list has none |
| Paths.ReplaceChar | lib/src/main/java/sharefirebasepreferences/crysxd/de/lib/SharedFirebasePreferences.java:128 | `replace(char, char)` keeps the length and changes exactly the positions holding the old character |
| Paths.Sanitize | lib/src/main/java/sharefirebasepreferences/crysxd/de/lib/SharedFirebasePreferences.java:127-129 | same length; no position holds `. # $ [ ]`; each of those becomes `-` and every other character stays in place |
| Paths.SanitizeIdempotent | lib/src/main/java/sharefirebasepreferences/crysxd/de/lib/SharedFirebasePreferences.java:127-129 | sanitizing twice equals sanitizing once |
| Paths.SanitizeIdentity | lib/src/main/java/sharefirebasepreferences/crysxd/de/lib/SharedFirebasePreferences.java:127-129 | sanitizing leaves a string unchanged if and only if it holds none of the five characters |
| Paths.SanitizeConcat | lib/src/main/java/sharefirebasepreferences/crysxd/de/lib/SharedFirebasePreferences.java:127-129 | sanitizing works character by character, so it distributes over concatenation |
| Paths.ReplaceAll | lib/src/main/java/sharefirebasepreferences/crysxd/de/lib/SharedFirebasePreferences.java:145-146 | Java's `String.replace(CharSequence, CharSequence)`: left-to-right, non-overlapping replacement whose inserted text is not rescanned; a string without the target's first character, or a replacement by the target itself, leaves the string unchanged; the scan itself is stated by ReplaceAllSkips, ReplaceAllAbsent, ReplaceAllLeading and ReplaceAllNoMatch. It requires a non-empty target, which Java does not, but only the two non-empty placeholders are ever passed |
| Paths.ReplaceAllSkips | lib/src/main/java/sharefirebasepreferences/crysxd/de/lib/SharedFirebasePreferences.java:145-146 | `String.replace` copies a prefix that cannot start an occurrence of the target |
| Paths.ReplaceAllAbsent | lib/src/main/java/sharefirebasepreferences/crysxd/de/lib/SharedFirebasePreferences.java:145-146 | `String.replace` leaves a string without the target's first character unchanged |
| Paths.ReplaceAllLeading | lib/src/main/java/sharefirebasepreferences/crysxd/de/lib/SharedFirebasePreferences.java:145-146 | `String.replace` replaces a leading occurrence and resumes scanning after it |
| Paths.ReplaceAllNoMatch | lib/src/main/java/sharefirebasepreferences/crysxd/de/lib/SharedFirebasePreferences.java:145-146 | `String.replace` copies a first character that does not start an occurrence of the target, even when it is the target's first character, and scans on from the next one |
| Paths.DoubledPlaceholder | lib/src/main/java/sharefirebasepreferences/crysxd/de/lib/SharedFirebasePreferences.java:145 | `"$$uid".replace("$uid", x)` is `"$" + x`: a `$` that does not start the placeholder is kept |
| Paths.NameTailHasNoUid | lib/src/main/java/sharefirebasepreferences/crysxd/de/lib/SharedFirebasePreferences.java:62 | substituting the user id leaves the `/$name` tail of the default pattern alone |
| Paths.DefaultPatternShape | lib/src/main/java/sharefirebasepreferences/crysxd/de/lib/SharedFirebasePreferences.java:62 | the default pattern is `/shared_prefs/`, the uid placeholder, `/`, the name placeholder |
| Paths.SingleSubstitution | lib/src/main/java/sharefirebasepreferences/crysxd/de/lib/SharedFirebasePreferences.java:145-146 | a placeholder occurring once after a `$`-free prefix is replaced by its value |
| Paths.DefaultUidSubstitution | lib/src/main/java/sharefirebasepreferences/crysxd/de/lib/SharedFirebasePreferences.java:145-146 | substituting the user id into the default pattern gives `/shared_prefs/<uid>/$name` |
| Paths.TrailingNameSubstitution | lib/src/main/java/sharefirebasepreferences/crysxd/de/lib/SharedFirebasePreferences.java:145-146 | the name placeholder at the end of a `$`-free prefix is replaced by the name, which is not rescanned |
| Paths.HeadIsClean | lib/src/main/java/sharefirebasepreferences/crysxd/de/lib/SharedFirebasePreferences.java:62 | the constant head of the default pattern holds no character that sanitizing changes |
| Paths.SanitizeLayout | lib/src/main/java/sharefirebasepreferences/crysxd/de/lib/SharedFirebasePreferences.java:145-146 | sanitizing the substituted default path sanitizes the user id and the name separately |
| Paths.GetRoot | lib/src/main/java/sharefirebasepreferences/crysxd/de/lib/SharedFirebasePreferences.java:138-147 | fails with IllegalStateException exactly when no user is signed in; otherwise the path holds none of the forbidden characters |
| Paths.DefaultRootLayout | lib/src/main/java/sharefirebasepreferences/crysxd/de/lib/SharedFirebasePreferences.java:138-147 | with the default pattern and a user id without `$`, the root is `/shared_prefs/` + sanitized uid + `/` + sanitized name: substitution happens before sanitizing |
| Push.OmitListOnlyMembership | lib/src/main/java/sharefirebasepreferences/crysxd/de/lib/SharedFirebasePreferences.java:624-628 | the removal tests membership only, so omit lists with the same members, in any order and with any repetitions, admit exactly the same payloads |
| Push.SetToList | lib/src/main/java/sharefirebasepreferences/crysxd/de/lib/SharedFirebasePreferences.java:619 | `new ArrayList<>(set)` lists every element of the set once and nothing else |
| Push.BuildPayload | lib/src/main/java/sharefirebasepreferences/crysxd/de/lib/SharedFirebasePreferences.java:613-628 | the payload's keys are the cache's keys minus every omitted key; each string set becomes a list of exactly its elements, every other value is passed unchanged |
| Push.PayloadListSizes | lib/src/main/java/sharefirebasepreferences/crysxd/de/lib/SharedFirebasePreferences.java:615-621 | a pushed set's list is as long as the set |
| Push.PushNeverDeletes | lib/src/main/java/sharefirebasepreferences/crysxd/de/lib/SharedFirebasePreferences.java:631 | the payload holds no null, so under the modelled partial-update rule no remote child is deleted: every remote key survives and untouched ones keep their values |
| Pull.PullContents | lib/src/main/java/sharefirebasepreferences/crysxd/de/lib/SharedFirebasePreferences.java:531-550 | after a pull the cache holds exactly the recognised children, whatever it held before; a list is stored as the set of its elements |
| Pull.DecodeChildren | lib/src/main/java/sharefirebasepreferences/crysxd/de/lib/SharedFirebasePreferences.java:531-550 | the loop over the children, started from a cleared editor, yields exactly the decoded snapshot |
| Pull.PullAfterPush | lib/src/main/java/sharefirebasepreferences/crysxd/de/lib/SharedFirebasePreferences.java:531-550 | pulling a payload just pushed gives back the cache without the omitted keys |
| Pull.PullAfterPushRoundTrip | lib/src/main/java/sharefirebasepreferences/crysxd/de/lib/SharedFirebasePreferences.java:615-628 | with no omitted keys, pulling a payload just pushed gives back the cache |
| Pull.PushThenPullResurrects | lib/src/main/java/sharefirebasepreferences/crysxd/de/lib/SharedFirebasePreferences.java:624-631 | against a node already holding a key, a push followed by a pull brings back a key removed locally, or the remote value of an omitted key |
| Preferences.DeliveriesInOrder | lib/src/main/java/sharefirebasepreferences/crysxd/de/lib/SharedFirebasePreferences.java:580-590 | a dispatch calls every listener exactly once, in list order, whether or not earlier ones threw an Exception |
| Preferences.DispatchLogNamesThrown | lib/src/main/java/sharefirebasepreferences/crysxd/de/lib/SharedFirebasePreferences.java:585-587 | every exception a listener throws is caught and logged with the callback's message |
| Preferences.FailedLogLosesListenerException | lib/src/main/java/sharefirebasepreferences/crysxd/de/lib/SharedFirebasePreferences.java:569-570 | as written, the failure dispatch logs the pull's exception instead of the one the listener threw |
| Preferences.PullNotifiesOnce | lib/src/main/java/sharefirebasepreferences/crysxd/de/lib/SharedFirebasePreferences.java:551-557 | each listener gets exactly one outcome of a pull: success exactly when processing did not throw (corrected, see Findings: as written a failed pull reaches each listener twice) |
| Preferences.FaultReportsBoth | lib/src/main/java/sharefirebasepreferences/crysxd/de/lib/SharedFirebasePreferences.java:551-557 | as written, when processing throws, every listener gets onPullFailed and then onPullSucceeded too |
| Preferences.SharedFirebasePreferences.constructor | lib/src/main/java/sharefirebasepreferences/crysxd/de/lib/SharedFirebasePreferences.java:90-94 | a new instance holds the given cache and root, an empty omit list and no pushes |
| Preferences.SharedFirebasePreferences.OmitKeys | lib/src/main/java/sharefirebasepreferences/crysxd/de/lib/SharedFirebasePreferences.java:189-192 | the keys are appended to the omit list, so the omitted set grows by exactly them |
| Preferences.SharedFirebasePreferences.Push | lib/src/main/java/sharefirebasepreferences/crysxd/de/lib/SharedFirebasePreferences.java:233-234 | one payload of the current cache and omit list is handed over, after the earlier ones |
| Preferences.Editor.constructor | lib/src/main/java/sharefirebasepreferences/crysxd/de/lib/SharedFirebasePreferences.java:365-368 | the editor edits the given preferences |
| Preferences.Editor.Commit | lib/src/main/java/sharefirebasepreferences/crysxd/de/lib/SharedFirebasePreferences.java:419-426 | returns the wrapped commit's result and pushes the committed cache if and only if that result is true |
| Preferences.Editor.Apply | lib/src/main/java/sharefirebasepreferences/crysxd/de/lib/SharedFirebasePreferences.java:429-432 | the wrapped editor is applied and the resulting cache is always pushed |
| Preferences.PullTask.constructor | lib/src/main/java/sharefirebasepreferences/crysxd/de/lib/SharedFirebasePreferences.java:496-500 | a new task has no listeners and has made no callbacks |
| Preferences.PullTask.FromSnapshot | lib/src/main/java/sharefirebasepreferences/crysxd/de/lib/SharedFirebasePreferences.java:508-512 | processing the snapshot in the constructor replaces the cache (unless a fault is raised while staging) but reaches no listener, as none can be registered yet |
| Preferences.PullTask.AddOnPullCompleteListener | lib/src/main/java/sharefirebasepreferences/crysxd/de/lib/SharedFirebasePreferences.java:521-524 | the listener is appended |
| Preferences.PullTask.OnDataChange | lib/src/main/java/sharefirebasepreferences/crysxd/de/lib/SharedFirebasePreferences.java:528-558 | without a fault the whole cache becomes the decoded snapshot and success goes to every listener; with a fault the fault is logged, the cache is unchanged when the fault is raised while staging and holds the decoded snapshot when it is raised inside `apply()`, and failure goes to every listener (the corrected behaviour, see Findings) |
| Preferences.PullTask.OnCancelled | lib/src/main/java/sharefirebasepreferences/crysxd/de/lib/SharedFirebasePreferences.java:593-595 | the database error is reported as a failure to every listener in order, each listener's own exception logged (corrected, see Findings: as written the log names the database error) |
| Preferences.PullTask.DispatchFetchFailed | lib/src/main/java/sharefirebasepreferences/crysxd/de/lib/SharedFirebasePreferences.java:564-574 | onPullFailed to every listener in order, each listener's own exception logged (corrected, see Findings) |
| Preferences.PullTask.DispatchFetchSucceeded | lib/src/main/java/sharefirebasepreferences/crysxd/de/lib/SharedFirebasePreferences.java:580-590 | onPullSucceeded to every listener in order, each listener's exception logged |
| Preferences.PullTask.Dispatch | lib/src/main/java/sharefirebasepreferences/crysxd/de/lib/SharedFirebasePreferences.java:581-589 | the dispatch loop: one call per listener in order, a log line per listener that threw |
| Registry.InstanceRegistry.constructor | lib/src/main/java/sharefirebasepreferences/crysxd/de/lib/SharedFirebasePreferences.java:57-62 | no instances are registered and the path pattern is the default one |
| Registry.InstanceRegistry.SetPathPattern | lib/src/main/java/sharefirebasepreferences/crysxd/de/lib/SharedFirebasePreferences.java:104-106 | the pattern for later instances is replaced |
| Registry.InstanceRegistry.GetInstance | lib/src/main/java/sharefirebasepreferences/crysxd/de/lib/SharedFirebasePreferences.java:159-170 | a registered name returns its instance with the map unchanged and no user check; otherwise, with no user it fails and registers nothing, with a user exactly one fresh entry is added under the name, rooted at `getRoot` of the current pattern |
| Registry.UserSwitchKeepsRoot | lib/src/main/java/sharefirebasepreferences/crysxd/de/lib/SharedFirebasePreferences.java:163-168 | asking for the same name under a second user returns the first user's instance and root |

## Left out

- Firebase plumbing: the single-value request of the `PullTask` constructor (line 498), `keepSynced` and its value listener (lines 219-226), and the network effect of `updateChildren`. A push is recorded as the payload handed over; `Push.UpdateChildren` is the model's idealised partial update (each payload key becomes a child holding its value, a null deletes), used only by the lemmas about a node that already holds data.
- `SyncAdapter` (lines 438-474): it builds a `PullTask` from the snapshot and attaches its logging listener afterwards; `PullTask.FromSnapshot` shows that this listener is never called.
- `pull()` and the logging listeners of `push()` (lines 199-247): `pull()` is a `PullTask` plus a listener that only logs; `Push` models `push()` without its logging.
- The `Task<Void>` forwarding methods of `PushTask` (lines 634-694).
- The getters and listener registration that pass through to the cache (lines 249-304), and the editor's `put`/`remove`/`clear` staging (lines 370-416): the staging is Android's, so `Commit` and `Apply` take the cache contents the wrapped editor leaves as a parameter.
- `getInstance(con, name, mode)` (lines 117-119) only supplies the default database; `getDefaultInstance` (lines 179-181) goes through Android's `PreferenceManager`; the context, the mode and the database object are not modelled.
- Push.PushNeverDeletes, Pull.PullAfterPush, Pull.PullAfterPushRoundTrip: the node is taken to store the payload exactly as it was handed over. `updateChildren` reads each key as a path, and the keys are not sanitized (line 631), so a key holding `. # $ [ ]` or `/` (such as `app.theme`) is not stored as one child and may make the call throw; Firebase also keeps no empty list, so an empty string set does not come back. The model treats neither case specially, and these three lemmas hold only where neither occurs.
- Preferences.DeliveriesInOrder, Preferences.PullTask.Dispatch: a listener only returns or throws an `Exception`. A listener that throws an `Error` ends the dispatch (and in `onDataChange` also skips line 557), and a listener that registers another listener during dispatch makes the loop's iterator throw `ConcurrentModificationException` outside the catch; neither is modelled.
- `synchronized` and every cross-thread effect.
- Float values: kept as their bit pattern, with no arithmetic.
- Numeric classes on the way back: the model takes `DataSnapshot.getValue()` to return the class that was pushed; any conversion Firebase makes when it stores a number is not part of this model. `Values.DecodeEncoded`, `Pull.PullAfterPush` and `Pull.PullAfterPushRoundTrip` rest on this assumption: an Integer or a Float is taken to come back as the same class.
- Lists read from the database are taken to hold strings; the unchecked cast at line 547 lets other element classes into a string set.
- Log lines other than the ones written in the catch blocks of `onDataChange` and the two dispatch methods.
- `SharedFirebasePreferencesContextWrapper` and `TestActivity` are not part of this model.

## Findings

| source | as written | input that shows it | evidently intended | confidence | as-written member | corrected member |
|---|---|---|---|---|---|---|
| lib/src/main/java/sharefirebasepreferences/crysxd/de/lib/SharedFirebasePreferences.java:551-557 | the catch block dispatches onPullFailed(e) and control then falls through to dispatchFetchSucceeded() | a snapshot whose processing throws an exception e (`fault = Some(e)`) with one registered listener: it receives onPullFailed(e) and then onPullSucceeded | a failed pull reports failure only | not executed; the fall-through follows from the control flow, the fault is a parameter, together with where it is raised (while staging or inside `apply()`) | Preferences.FaultReportsBoth | Preferences.PullTask.OnDataChange, Preferences.PullNotifiesOnce |
| lib/src/main/java/sharefirebasepreferences/crysxd/de/lib/SharedFirebasePreferences.java:569-570 | the catch of `e2` logs `e`, the pull's exception | a listener whose onPullFailed throws e2 different from e: the log names e, and e2 is lost | log the listener's exception e2, as dispatchFetchSucceeded does | not executed | Preferences.FailedLogLosesListenerException | Preferences.PullTask.DispatchFetchFailed, Preferences.PullTask.OnCancelled |

=== FILE: Paths.dfy ===
/**
 * The database path of a preferences instance: the path pattern with the user id and the
 * preferences name substituted, then stripped of the characters Firebase forbids in keys.
 */
module Paths {
  import opened Wrappers

  /** The placeholder for the preferences' name. */
  const NAME_PLACEHOLDER: string := "$name"
  /** The placeholder for the signed-in user's id. */
  const UID_PLACEHOLDER: string := "$uid"
  /** The path pattern in force until `setPathPattern` is called. */
  const DEFAULT_PATH_PATTERN: string := "/shared_prefs/$uid/$name"

  const NO_USER: Exception := Exception("IllegalStateException", "No user signed in with firebase")

  /** The characters Firebase does not allow in a path. */
  predicate Forbidden(c: char) {
    c == '.' || c == '#' || c == '$' || c == '[' || c == ']'
  }

  /** Java's `String.replace(char, char)`: every occurrence of `from` becomes `to`. */
  function ReplaceChar(s: string, from: char, to: char): (r: string)
    ensures |r| == |s|
    ensures forall i :: 0 <= i < |s| ==> r[i] == (if s[i] == from then to else s[i])
  {
    if s == [] then [] else [if s[0] == from then to else s[0]] + ReplaceChar(s[1..], from, to)
  }

  /** `sanitizeString`: five chained character replacements, each forbidden character by '-'. */
  function Sanitize(s: string): (r: string)
    ensures |r| == |s|
    ensures forall i :: 0 <= i < |s| ==> !Forbidden(r[i])
    ensures forall i :: 0 <= i < |s| ==> r[i] == (if Forbidden(s[i]) then '-' else s[i])
  {
    ReplaceChar(ReplaceChar(ReplaceChar(ReplaceChar(ReplaceChar(s, '.', '-'), '#', '-'), '$', '-'), '[', '-'), ']', '-')
  }

  /** Sanitizing twice is sanitizing once. */
  lemma SanitizeIdempotent(s: string)
    ensures Sanitize(Sanitize(s)) == Sanitize(s)
  {
  }

  /** Sanitizing leaves a string alone exactly when it holds no forbidden character. */
  lemma SanitizeIdentity(s: string)
    ensures Sanitize(s) == s <==> forall i :: 0 <= i < |s| ==> !Forbidden(s[i])
  {
  }

  /** Sanitizing works character by character, so it distributes over concatenation. */
  lemma SanitizeConcat(a: string, b: string)
    ensures Sanitize(a + b) == Sanitize(a) + Sanitize(b)
  {
  }

  /**
   * Java's `String.replace(CharSequence, CharSequence)`: scanning from the left, every
   * occurrence of `target` that does not overlap an earlier one becomes `rep`; the
   * inserted text is not scanned again.
   */
  function ReplaceAll(s: string, target: string, rep: string): (r: string)
    requires target != []
    ensures target[0] !in s ==> r == s
    ensures rep == target ==> r == s
    decreases |s|
  {
    if |s| < |target| then s
    else if s[..|target|] == target then rep + ReplaceAll(s[|target|..], target, rep)
    else [s[0]] + ReplaceAll(s[1..], target, rep)
  }

  /** A prefix without the target's first character is copied unchanged. */
  lemma {:induction false} ReplaceAllSkips(a: string, b: string, target: string, rep: string)
    requires target != [] && target[0] !in a
    ensures ReplaceAll(a + b, target, rep) == a + ReplaceAll(b, target, rep)
  {
    if a != [] {
      assert (a + b)[1..] == a[1..] + b;
      assert (a + b)[0] == a[0];
      if |a + b| >= |target| {
        assert (a + b)[..|target|][0] == a[0];
      }
      ReplaceAllSkips(a[1..], b, target, rep);
    } else {
      assert a + b == b;
    }
  }

  /** A string without the target's first character is left unchanged. */
  lemma ReplaceAllAbsent(s: string, target: string, rep: string)
    requires target != [] && target[0] !in s
    ensures ReplaceAll(s, target, rep) == s
  {
    ReplaceAllSkips(s, [], target, rep);
    assert s + [] == s;
  }

  /** A leading occurrence of the target is replaced and the scan resumes after it. */
  lemma ReplaceAllLeading(b: string, target: string, rep: string)
    requires target != []
    ensures ReplaceAll(target + b, target, rep) == rep + ReplaceAll(b, target, rep)
  {
    assert (target + b)[..|target|] == target;
    assert (target + b)[|target|..] == b;
  }

  /**
   * A first character that does not start an occurrence of the target is copied, even when
   * it is the target's first character, and the scan goes on from the next one.
   */
  lemma ReplaceAllNoMatch(s: string, target: string, rep: string)
    requires target != [] && s != [] && !(target <= s)
    ensures ReplaceAll(s, target, rep) == [s[0]] + ReplaceAll(s[1..], target, rep)
  {
    if |s| < |target| {
      assert s == [s[0]] + s[1..];
    }
  }

  /** `"$$uid".replace("$uid", x)` keeps the first `$`: the scan restarts one character on. */
  lemma DoubledPlaceholder(x: string)
    ensures ReplaceAll("$$uid", UID_PLACEHOLDER, x) == "$" + x
  {
    assert "$$uid"[3] != UID_PLACEHOLDER[3];
    ReplaceAllNoMatch("$$uid", UID_PLACEHOLDER, x);
    assert "$$uid"[1..] == UID_PLACEHOLDER + [];
    ReplaceAllLeading([], UID_PLACEHOLDER, x);
  }

  /**
   * `getRoot`: fails with IllegalStateException when no user is signed in; otherwise the
   * user id and then the name are substituted into the pattern and the result sanitized.
   * The database reference is modelled by its path.
   */
  function GetRoot(pattern: string, user: Option<string>, name: string): (r: Result<string>)
    ensures r.Failure? <==> user.None?
    ensures r.Failure? ==> r.error == NO_USER
    ensures r.Success? ==> forall i :: 0 <= i < |r.value| ==> !Forbidden(r.value[i])
  {
    match user
    case None => Failure(NO_USER)
    case Some(uid) =>
      Success(Sanitize(ReplaceAll(ReplaceAll(pattern, UID_PLACEHOLDER, uid), NAME_PLACEHOLDER, name)))
  }

  /** The user-id placeholder does not occur in what follows it in the default pattern. */
  lemma NameTailHasNoUid(uid: string)
    ensures ReplaceAll("/" + NAME_PLACEHOLDER, UID_PLACEHOLDER, uid) == "/" + NAME_PLACEHOLDER
  {
    var n := NAME_PLACEHOLDER;
    assert n[..|UID_PLACEHOLDER|][1] == 'n';
    assert n[1..] == "name";
    ReplaceAllAbsent("name", UID_PLACEHOLDER, uid);
    ReplaceAllSkips("/", NAME_PLACEHOLDER, UID_PLACEHOLDER, uid);
  }

  /** The shape of the default pattern: a constant head, the user id, a slash, the name. */
  lemma DefaultPatternShape()
    ensures DEFAULT_PATH_PATTERN == "/shared_prefs/" + (UID_PLACEHOLDER + ("/" + NAME_PLACEHOLDER))
  {}

  /** Substituting a placeholder that occurs once, after a prefix free of '$'. */
  lemma SingleSubstitution(s: string, head: string, target: string, tail: string, rep: string)
    requires s == head + (target + tail)
    requires target != [] && target[0] !in head
    requires ReplaceAll(tail, target, rep) == tail
    ensures ReplaceAll(s, target, rep) == head + rep + tail
  {
    ReplaceAllSkips(head, target + tail, target, rep);
    ReplaceAllLeading(tail, target, rep);
  }

  /** Substituting the user id into the default pattern. */
  lemma DefaultUidSubstitution(uid: string)
    ensures ReplaceAll(DEFAULT_PATH_PATTERN, UID_PLACEHOLDER, uid) == "/shared_prefs/" + uid + "/" + NAME_PLACEHOLDER
  {
    DefaultPatternShape();
    NameTailHasNoUid(uid);
    SingleSubstitution(DEFAULT_PATH_PATTERN, "/shared_prefs/", UID_PLACEHOLDER, "/" + NAME_PLACEHOLDER, uid);
  }

  /** Substituting the name when it is the only placeholder left, at the end. */
  lemma TrailingNameSubstitution(prefix: string, name: string)
    requires '$' !in prefix
    ensures ReplaceAll(prefix + NAME_PLACEHOLDER, NAME_PLACEHOLDER, name) == prefix + name
  {
    ReplaceAllSkips(prefix, NAME_PLACEHOLDER, NAME_PLACEHOLDER, name);
    ReplaceAllLeading([], NAME_PLACEHOLDER, name);
    assert NAME_PLACEHOLDER + [] == NAME_PLACEHOLDER;
    assert ReplaceAll([], NAME_PLACEHOLDER, name) == [];
    assert name + [] == name;
  }

  /**
   * With the default pattern the root is `/shared_prefs/<uid>/<name>`, each part sanitized,
   * provided the user id holds no '$' (otherwise a "$name" inside it would be substituted too).
   */
  lemma DefaultRootLayout(uid: string, name: string)
    requires '$' !in uid
    ensures GetRoot(DEFAULT_PATH_PATTERN, Some(uid), name)
         == Success("/shared_prefs/" + Sanitize(uid) + "/" + Sanitize(name))
  {
    var head := "/shared_prefs/";
    var withUid := ReplaceAll(DEFAULT_PATH_PATTERN, UID_PLACEHOLDER, uid);
    DefaultUidSubstitution(uid);
    assert withUid == (head + uid + "/") + NAME_PLACEHOLDER;
    assert '$' !in head + uid + "/";
    TrailingNameSubstitution(head + uid + "/", name);
    var withName := ReplaceAll(withUid, NAME_PLACEHOLDER, name);
    assert withName == head + uid + "/" + name;
    HeadIsClean();
    SanitizeLayout(head, uid, name);
  }

  /** The constant head of the default pattern needs no sanitizing. */
  lemma HeadIsClean()
    ensures forall i :: 0 <= i < |"/shared_prefs/"| ==> !Forbidden("/shared_prefs/"[i])
  {}

  /** Sanitizing `head + uid + "/" + name` when the head needs no sanitizing. */
  lemma SanitizeLayout(head: string, uid: string, name: string)
    requires forall i :: 0 <= i < |head| ==> !Forbidden(head[i])
    ensures Sanitize(head + uid + "/" + name) == head + Sanitize(uid) + "/" + Sanitize(name)
  {
    SanitizeConcat(head + uid + "/", name);
    SanitizeConcat(head + uid, "/");
    SanitizeConcat(head, uid);
    SanitizeIdentity(head);
    SanitizeIdentity("/");
  }
}

=== FILE: Preferences.dfy ===
/**
 * SharedFirebasePreferences with its Editor and PullTask. The local SharedPreferences is
 * reduced to the map it holds; the Firebase node to the payloads handed to `updateChildren`.
 */
module Preferences {
  import opened Wrappers
  import opened Values
  import opened Push
  import opened Pull

  /*** Pull-complete listeners and their dispatch ***/

  /**
   * An OnPullCompleteListener, reduced to an identity and to the exception, if any, each of
   * its two callbacks throws.
   */
  datatype Listener = Listener(id: nat, succeededThrows: Option<Exception>, failedThrows: Option<Exception>)

  /** The two callbacks: onPullSucceeded and onPullFailed(e). */
  datatype Event = PullSucceeded | PullFailed(cause: Exception)

  /** One call of a listener's callback. */
  datatype Delivery = Delivery(listener: nat, event: Event)

  /** One `Log.e` line: its message and the exception logged with it. */
  datatype LogEntry = LogEntry(message: string, cause: Exception)

  /**
   * Where in `onDataChange`'s try block a processing fault is raised: while the editor is being
   * filled, or inside `apply()`, after it has committed the new contents to the cache (an
   * `OnSharedPreferenceChangeListener` of the cache that throws, say).
   */
  datatype Stage = Staging | Applying

  const PROCESSING_FAILED: string := "Error while processing fetched data"

  function DispatchMessage(ev: Event): string {
    match ev
    case PullSucceeded => "Error while dispatching onPullSucceeded() event"
    case PullFailed(_) => "Error while dispatching onPullFailed() event"
  }

  /** The exception `l` throws when handed `ev`, if any. */
  function Thrown(l: Listener, ev: Event): Option<Exception> {
    if ev.PullSucceeded? then l.succeededThrows else l.failedThrows
  }

  /** The calls a dispatch loop makes: `ev` to each listener of `ls`, in list order. */
  function Deliveries(ls: seq<Listener>, ev: Event): seq<Delivery> {
    if ls == [] then [] else Deliveries(ls[..|ls| - 1], ev) + [Delivery(ls[|ls| - 1].id, ev)]
  }

  /** What a dispatch loop logs: one line per listener that throws, naming what it threw. */
  function DispatchLog(ls: seq<Listener>, ev: Event): seq<LogEntry> {
    if ls == [] then []
    else
      DispatchLog(ls[..|ls| - 1], ev)
      + match Thrown(ls[|ls| - 1], ev) {
          case None => []
          case Some(x) => [LogEntry(DispatchMessage(ev), x)]
        }
  }

  /**
   * Every listener is called exactly once, in list order, whether or not the ones before
   * it threw.
   */
  lemma {:induction false} DeliveriesInOrder(ls: seq<Listener>, ev: Event)
    ensures |Deliveries(ls, ev)| == |ls|
    ensures forall i :: 0 <= i < |ls| ==> Deliveries(ls, ev)[i] == Delivery(ls[i].id, ev)
  {
    if ls != [] {
      var init := ls[..|ls| - 1];
      DeliveriesInOrder(init, ev);
      assert forall i :: 0 <= i < |init| ==> init[i] == ls[i];
    }
  }

  /** Each exception a listener throws is logged, under the message of its callback. */
  lemma {:induction false} DispatchLogNamesThrown(ls: seq<Listener>, ev: Event, i: nat)
    requires i < |ls| && Thrown(ls[i], ev).Some?
    ensures LogEntry(DispatchMessage(ev), Thrown(ls[i], ev).value) in DispatchLog(ls, ev)
  {
    var init := ls[..|ls| - 1];
    if i < |ls| - 1 {
      assert init[i] == ls[i];
      DispatchLogNamesThrown(init, ev, i);
    }
  }

  /**
   * `dispatchFetchFailed` as written: its catch block logs the pull's exception `e` rather
   * than the exception `e2` the listener threw.
   */
  function FailedDispatchLogAsWritten(ls: seq<Listener>, e: Exception): seq<LogEntry> {
    if ls == [] then []
    else
      FailedDispatchLogAsWritten(ls[..|ls| - 1], e)
      + if ls[|ls| - 1].failedThrows.Some? then [LogEntry(DispatchMessage(PullFailed(e)), e)] else []
  }

  /** The listener's own exception never reaches the log of the as-written failure dispatch. */
  lemma FailedLogLosesListenerException(e: Exception, e2: Exception, id: nat)
    requires e != e2
    ensures var ls := [Listener(id, None, Some(e2))];
            && FailedDispatchLogAsWritten(ls, e) == [LogEntry(DispatchMessage(PullFailed(e)), e)]
            && DispatchLog(ls, PullFailed(e)) == [LogEntry(DispatchMessage(PullFailed(e)), e2)]
  {
  }

  /**
   * The callbacks one pull makes: onPullSucceeded to every listener, or onPullFailed(e) to
   * every listener when processing the snapshot threw `e`.
   */
  function PullDeliveries(ls: seq<Listener>, fault: Option<Exception>): seq<Delivery> {
    match fault
    case None => Deliveries(ls, PullSucceeded)
    case Some(e) => Deliveries(ls, PullFailed(e))
  }

  /** A pull reports one outcome to each listener, and it is success exactly when nothing threw. */
  lemma PullNotifiesOnce(ls: seq<Listener>, fault: Option<Exception>)
    ensures |PullDeliveries(ls, fault)| == |ls|
    ensures forall i :: 0 <= i < |ls| ==>
      && PullDeliveries(ls, fault)[i].listener == ls[i].id
      && (PullDeliveries(ls, fault)[i].event == PullSucceeded <==> fault.None?)
  {
    match fault
    case None => DeliveriesInOrder(ls, PullSucceeded);
    case Some(e) => DeliveriesInOrder(ls, PullFailed(e));
  }

  /**
   * `onDataChange` as written: the catch block dispatches onPullFailed and then falls
   * through to the dispatch of onPullSucceeded.
   */
  function PullDeliveriesAsWritten(ls: seq<Listener>, fault: Option<Exception>): seq<Delivery> {
    (if fault.Some? then Deliveries(ls, PullFailed(fault.value)) else []) + Deliveries(ls, PullSucceeded)
  }

  /** After a failed pull, as written, every listener is told both that it failed and that it succeeded. */
  lemma FaultReportsBoth(ls: seq<Listener>, e: Exception)
    ensures |PullDeliveriesAsWritten(ls, Some(e))| == 2 * |ls|
    ensures forall i :: 0 <= i < |ls| ==>
      && Delivery(ls[i].id, PullFailed(e)) in PullDeliveriesAsWritten(ls, Some(e))
      && Delivery(ls[i].id, PullSucceeded) in PullDeliveriesAsWritten(ls, Some(e))
  {
    DeliveriesInOrder(ls, PullFailed(e));
    DeliveriesInOrder(ls, PullSucceeded);
    var f, s := Deliveries(ls, PullFailed(e)), Deliveries(ls, PullSucceeded);
    forall i | 0 <= i < |ls|
      ensures Delivery(ls[i].id, PullFailed(e)) in f + s && Delivery(ls[i].id, PullSucceeded) in f + s
    {
      assert (f + s)[i] == f[i];
      assert (f + s)[|f| + i] == s[i];
    }
  }

  /*** The preferences ***/

  class SharedFirebasePreferences {
    /** mCache: the wrapped local SharedPreferences, as the map it holds. */
    var cache: map<string, PrefValue>
    /** mRoot: the path of the database node. */
    const root: string
    /** mOmmitedKeys */
    var omittedKeys: seq<string>
    /** The payloads handed to `updateChildren`, oldest first. */
    var pushes: seq<map<string, Value>>

    constructor(cache: map<string, PrefValue>, root: string)
      ensures this.cache == cache && this.root == root
      ensures omittedKeys == [] && pushes == []
    {
      this.cache := cache;
      this.root := root;
      omittedKeys := [];
      pushes := [];
    }

    /** `omitKeys`: appends, so repeated calls accumulate. */
    method OmitKeys(keys: seq<string>)
      modifies this`omittedKeys
      ensures omittedKeys == old(omittedKeys) + keys
      ensures OmittedSet(omittedKeys) == OmittedSet(old(omittedKeys)) + OmittedSet(keys)
    {
      omittedKeys := omittedKeys + keys;
    }

    /** `push`: builds the payload from the current cache and starts the update. */
    method Push() returns (payload: map<string, Value>)
      modifies this`pushes
      ensures IsPushPayload(cache, omittedKeys, payload)
      ensures pushes == old(pushes) + [payload]
    {
      payload := BuildPayload(cache, omittedKeys);
      pushes := pushes + [payload];
    }
  }

  /*** The editor ***/

  class Editor {
    /** mPrefs */
    const prefs: SharedFirebasePreferences

    constructor(prefs: SharedFirebasePreferences)
      ensures this.prefs == prefs
    {
      this.prefs := prefs;
    }

    /**
     * `commit`: commits the wrapped editor and pushes only when that commit succeeded. The
     * wrapped commit is Android's: it leaves the cache holding `written` and returns
     * `wrappedResult`.
     */
    method Commit(wrappedResult: bool, written: map<string, PrefValue>) returns (r: bool)
      modifies prefs`cache, prefs`pushes
      ensures r == wrappedResult && prefs.cache == written
      ensures r <==> |prefs.pushes| == |old(prefs.pushes)| + 1
      ensures !r ==> prefs.pushes == old(prefs.pushes)
      ensures r ==> (&& prefs.pushes[..|old(prefs.pushes)|] == old(prefs.pushes)
                     && IsPushPayload(written, prefs.omittedKeys, prefs.pushes[|old(prefs.pushes)|]))
    {
      prefs.cache := written;
      if wrappedResult {
        var _ := prefs.Push();
        return true;
      } else {
        return false;
      }
    }

    /** `apply`: applies the wrapped editor (leaving `written` in the cache) and always pushes. */
    method Apply(written: map<string, PrefValue>)
      modifies prefs`cache, prefs`pushes
      ensures prefs.cache == written
      ensures |prefs.pushes| == |old(prefs.pushes)| + 1
      ensures prefs.pushes[..|old(prefs.pushes)|] == old(prefs.pushes)
      ensures IsPushPayload(written, prefs.omittedKeys, prefs.pushes[|old(prefs.pushes)|])
    {
      prefs.cache := written;
      var _ := prefs.Push();
    }
  }

  /*** Pulling ***/

  class PullTask {
    /** mPreferences */
    const prefs: SharedFirebasePreferences
    /** mListener */
    var listeners: seq<Listener>
    /** The callbacks made so far, oldest first. */
    var delivered: seq<Delivery>
    /** The lines logged so far, oldest first. */
    var errorLog: seq<LogEntry>

    /** `PullTask(preferences)`; its request for a single value event is Firebase's. */
    constructor(prefs: SharedFirebasePreferences)
      ensures this.prefs == prefs && listeners == [] && delivered == [] && errorLog == []
    {
      this.prefs := prefs;
      listeners := [];
      delivered := [];
      errorLog := [];
    }

    /**
     * `PullTask(preferences, dataSnapshot)`: processes the snapshot at once, before any
     * listener can have been added, so no callback is made.
     */
    constructor FromSnapshot(prefs: SharedFirebasePreferences, snapshot: map<string, Value>,
                             fault: Option<Exception>, raisedIn: Stage)
      modifies prefs`cache
      ensures this.prefs == prefs && listeners == [] && delivered == []
      ensures prefs.cache == if fault.None? || raisedIn == Applying then DecodeSnapshot(snapshot) else old(prefs.cache)
      ensures errorLog == if fault.None? then [] else [LogEntry(PROCESSING_FAILED, fault.value)]
    {
      this.prefs := prefs;
      listeners := [];
      delivered := [];
      errorLog := [];
      new;
      OnDataChange(snapshot, fault, raisedIn);
    }

    /** `addOnPullCompleteListener` */
    method AddOnPullCompleteListener(l: Listener)
      modifies this`listeners
      ensures listeners == old(listeners) + [l]
    {
      listeners := listeners + [l];
    }

    /**
     * `onDataChange`: replaces the whole cache by the decodable children of the snapshot
     * and reports success. `fault` is the exception, if any, raised while the snapshot is
     * processed, and `raisedIn` says where: a fault while staging leaves the cache as it was,
     * one inside `apply()` comes after the new contents are in place. Either way failure is
     * reported instead.
     */
    method OnDataChange(snapshot: map<string, Value>, fault: Option<Exception>, raisedIn: Stage)
      modifies this`delivered, this`errorLog, prefs`cache
      ensures prefs.cache == if fault.None? || raisedIn == Applying then DecodeSnapshot(snapshot) else old(prefs.cache)
      ensures delivered == old(delivered) + PullDeliveries(listeners, fault)
      ensures fault.None? ==> errorLog == old(errorLog) + DispatchLog(listeners, PullSucceeded)
      ensures fault.Some? ==> errorLog == old(errorLog) + [LogEntry(PROCESSING_FAILED, fault.value)]
                                          + DispatchLog(listeners, PullFailed(fault.value))
    {
      match fault {
        case None =>
          var staged := DecodeChildren(snapshot);
          prefs.cache := staged;  // apply()
          DispatchFetchSucceeded();
        case Some(e) =>
          if raisedIn == Applying {
            var staged := DecodeChildren(snapshot);
            prefs.cache := staged;  // apply() commits, then throws
          }
          errorLog := errorLog + [LogEntry(PROCESSING_FAILED, e)];
          DispatchFetchFailed(e);
      }
    }

    /** `onCancelled`: reports the database error to every listener. */
    method OnCancelled(error: Exception)
      modifies this`delivered, this`errorLog
      ensures delivered == old(delivered) + Deliveries(listeners, PullFailed(error))
      ensures errorLog == old(errorLog) + DispatchLog(listeners, PullFailed(error))
    {
      DispatchFetchFailed(error);
    }

    /** `dispatchFetchFailed`: onPullFailed(e) to each listener, each one's exception caught and logged. */
    method DispatchFetchFailed(e: Exception)
      modifies this`delivered, this`errorLog
      ensures delivered == old(delivered) + Deliveries(listeners, PullFailed(e))
      ensures errorLog == old(errorLog) + DispatchLog(listeners, PullFailed(e))
    {
      Dispatch(PullFailed(e));
    }

    /** `dispatchFetchSucceeded`: onPullSucceeded to each listener, each one's exception caught and logged. */
    method DispatchFetchSucceeded()
      modifies this`delivered, this`errorLog
      ensures delivered == old(delivered) + Deliveries(listeners, PullSucceeded)
      ensures errorLog == old(errorLog) + DispatchLog(listeners, PullSucceeded)
    {
      Dispatch(PullSucceeded);
    }

    /** The loop the two dispatch methods share. */
    method Dispatch(ev: Event)
      modifies this`delivered, this`errorLog
      ensures delivered == old(delivered) + Deliveries(listeners, ev)
      ensures errorLog == old(errorLog) + DispatchLog(listeners, ev)
    {
      var i := 0;
      while i < |listeners|
        invariant 0 <= i <= |listeners|
        invariant delivered == old(delivered) + Deliveries(listeners[..i], ev)
        invariant errorLog == old(errorLog) + DispatchLog(listeners[..i], ev)
      {
        var l := listeners[i];
        assert listeners[..i + 1][..i] == listeners[..i];
        delivered := delivered + [Delivery(l.id, ev)];
        match Thrown(l, ev) {
          case None =>
          case Some(x) => errorLog := errorLog + [LogEntry(DispatchMessage(ev), x)];
        }
        i := i + 1;
      }
      assert listeners[..i] == listeners;
    }
  }
}

=== FILE: Pull.dfy ===
/**
 * What PullTask.onDataChange writes into the cache: the cache is cleared and every child of
 * the snapshot whose value has a recognised class is put back, decoded.
 */
module Pull {
  import opened Wrappers
  import opened Values
  import opened Push

  /** The cache contents after a pull of `children`: the decodable children, decoded. */
  function DecodeSnapshot(children: map<string, Value>): map<string, PrefValue> {
    map k | k in children && Decode(children[k]).Some? :: Decode(children[k]).value
  }

  /**
   * The cache after a pull holds exactly the recognised children, whatever it held before;
   * scalars are copied and a list becomes the set of its elements.
   */
  lemma PullContents(children: map<string, Value>, k: string)
    ensures k in DecodeSnapshot(children) <==> k in children && Recognised(children[k])
    ensures k in children && Recognised(children[k]) && !children[k].List?
            ==> DecodeSnapshot(children)[k] == children[k]
    ensures k in children && children[k].List?
            ==> DecodeSnapshot(children)[k] == StringSet(set x | x in children[k].items)
  {
  }

  /** The loop of onDataChange over the snapshot's children, putting each decodable one. */
  method DecodeChildren(children: map<string, Value>) returns (staged: map<string, PrefValue>)
    ensures staged == DecodeSnapshot(children)
  {
    staged := map[];  // clear()
    var todo := children.Keys;
    while todo != {}
      invariant todo <= children.Keys
      invariant forall k :: k in staged <==> k in children && k !in todo && Decode(children[k]).Some?
      invariant forall k :: k in staged ==> Some(staged[k]) == Decode(children[k])
      decreases todo
    {
      var k :| k in todo;
      var v := children[k];
      match v {
        case Str(_) => staged := staged[k := v];
        case Long(_) => staged := staged[k := v];
        case Int(_) => staged := staged[k := v];
        case Bool(_) => staged := staged[k := v];
        case Float(_) => staged := staged[k := v];
        case List(items) => staged := staged[k := StringSet(set x | x in items)];
        case _ =>
      }
      todo := todo - {k};
    }
  }

  /**
   * Pulling what was just pushed gives back the cache, less the omitted keys.
   */
  lemma PullAfterPush(cache: map<string, PrefValue>, omitted: seq<string>, payload: map<string, Value>)
    requires IsPushPayload(cache, omitted, payload)
    ensures DecodeSnapshot(payload) == map k | k in cache && k !in omitted :: cache[k]
  {
    forall k | k in payload ensures Decode(payload[k]) == Some(cache[k]) {
      DecodeEncoded(cache[k], payload[k]);
    }
  }

  /** With nothing omitted, push followed by pull is the identity on the cache. */
  lemma PullAfterPushRoundTrip(cache: map<string, PrefValue>, payload: map<string, Value>)
    requires IsPushPayload(cache, [], payload)
    ensures DecodeSnapshot(payload) == cache
  {
    PullAfterPush(cache, [], payload);
  }

  /**
   * Against a node that already holds children, a push followed by a pull does not restore
   * the cache: a key removed locally but still stored remotely comes back, and so does the
   * remote value of an omitted key.
   */
  lemma PushThenPullResurrects(cache: map<string, PrefValue>, omitted: seq<string>, payload: map<string, Value>,
                               remote: map<string, Value>, k: string)
    requires IsPushPayload(cache, omitted, payload)
    requires k in remote && Recognised(remote[k]) && (k !in cache || k in omitted)
    ensures k in DecodeSnapshot(UpdateChildren(remote, payload))
    ensures DecodeSnapshot(UpdateChildren(remote, payload))[k] == Decode(remote[k]).value
  {
    PushNeverDeletes(cache, omitted, payload, remote);
  }
}

=== FILE: Push.dfy ===
/**
 * The payload PushTask hands to `updateChildren`: the whole local cache, string sets
 * turned into lists, omitted keys dropped.
 */
module Push {
  import opened Values

  /** The keys listed by `omitKeys`; membership is all that matters. */
  function OmittedSet(omitted: seq<string>): set<string> {
    set k | k in omitted
  }

  /**
   * `payload` is a push of `cache` with `omitted` keys withheld: exactly the cached keys
   * not omitted, each with its encoded value.
   */
  ghost predicate IsPushPayload(cache: map<string, PrefValue>, omitted: seq<string>, payload: map<string, Value>) {
    && payload.Keys == cache.Keys - OmittedSet(omitted)
    && forall k :: k in payload ==> Encodes(cache[k], payload[k])
  }

  /**
   * Only which keys the omit list holds matters to a push: two lists with the same members,
   * in any order and with any repetitions, admit exactly the same payloads.
   */
  lemma OmitListOnlyMembership(cache: map<string, PrefValue>, a: seq<string>, b: seq<string>,
                               payload: map<string, Value>)
    requires forall k :: k in a <==> k in b
    ensures IsPushPayload(cache, a, payload) <==> IsPushPayload(cache, b, payload)
  {
    assert OmittedSet(a) == OmittedSet(b);
  }

  /** `new ArrayList<>(set)`: the elements of `s`, each once, in an order the set chooses. */
  method SetToList(s: set<string>) returns (l: seq<string>)
    ensures Listing(l, s)
  {
    l := [];
    var rest := s;
    while rest != {}
      invariant rest <= s
      invariant Distinct(l)
      invariant forall x :: x in l ==> x in s && x !in rest
      invariant forall x :: x in s ==> x in l || x in rest
      decreases rest
    {
      var x :| x in rest;
      l := l + [x];
      rest := rest - {x};
    }
  }

  /**
   * The PushTask constructor: copy the cache, replace each string set by a list in place,
   * then remove every key found in the omit list.
   */
  method BuildPayload(cache: map<string, PrefValue>, omitted: seq<string>) returns (values: map<string, Value>)
    ensures IsPushPayload(cache, omitted, values)
  {
    values := cache;
    // each string set becomes a list of its elements
    var todo := values.Keys;
    while todo != {}
      invariant todo <= cache.Keys && values.Keys == cache.Keys
      invariant forall k :: k in todo ==> values[k] == cache[k]
      invariant forall k :: k in values && k !in todo ==> Encodes(cache[k], values[k])
      decreases todo
    {
      var k :| k in todo;
      if values[k].StringSet? {
        var l := SetToList(values[k].elems);
        values := values[k := List(l)];
      }
      todo := todo - {k};
    }
    // then every key on the omit list is dropped
    var keys := values.Keys;
    while keys != {}
      invariant keys <= values.Keys <= cache.Keys
      invariant forall k :: k in values && k !in keys ==> k !in omitted
      invariant forall k :: k in cache && k !in omitted ==> k in values
      invariant forall k :: k in values ==> Encodes(cache[k], values[k])
      decreases keys
    {
      var key :| key in keys;
      if key in omitted {
        values := values - {key};
      }
      keys := keys - {key};
    }
  }

  /** A pushed string set has exactly as many list entries as the set has elements. */
  lemma PayloadListSizes(cache: map<string, PrefValue>, omitted: seq<string>, payload: map<string, Value>, k: string)
    requires IsPushPayload(cache, omitted, payload)
    requires k in payload && cache[k].StringSet?
    ensures payload[k].List? && |payload[k].items| == |cache[k].elems|
  {
    assert Encodes(cache[k], payload[k]);
    ListingLength(payload[k].items, cache[k].elems);
  }

  /** Firebase's partial update: each payload child replaces the stored one; a null deletes it. */
  ghost function UpdateChildren(remote: map<string, Value>, payload: map<string, Value>): (r: map<string, Value>)
  {
    map k | k in remote.Keys + payload.Keys && (k in payload ==> !payload[k].Null?)
      :: if k in payload then payload[k] else remote[k]
  }

  /**
   * A push never deletes anything remotely: every remote child survives the update, keeping
   * its value unless the payload rewrote it, and every payload entry is written.
   */
  lemma PushNeverDeletes(cache: map<string, PrefValue>, omitted: seq<string>, payload: map<string, Value>,
                         remote: map<string, Value>)
    requires IsPushPayload(cache, omitted, payload)
    ensures UpdateChildren(remote, payload).Keys == remote.Keys + payload.Keys
    ensures forall k :: k in remote && k !in payload ==> UpdateChildren(remote, payload)[k] == remote[k]
    ensures forall k :: k in payload ==> UpdateChildren(remote, payload)[k] == payload[k]
  {
  }
}

=== FILE: Registry.dfy ===
/**
 * The static state of SharedFirebasePreferences: the instances by name and the path pattern.
 * The signed-in user (FirebaseAuth) and the local preferences file Android opens for a name
 * are foreign; they enter as parameters.
 */
module Registry {
  import opened Wrappers
  import opened Values
  import opened Paths
  import opened Preferences

  class InstanceRegistry {
    /** sInstances */
    var instances: map<string, SharedFirebasePreferences>
    /** sPathPattern */
    var pathPattern: string

    constructor()
      ensures instances == map[] && pathPattern == DEFAULT_PATH_PATTERN
    {
      instances := map[];
      pathPattern := DEFAULT_PATH_PATTERN;
    }

    /** `setPathPattern`: affects only instances created afterwards. */
    method SetPathPattern(pattern: string)
      modifies this`pathPattern
      ensures pathPattern == pattern
    {
      pathPattern := pattern;
    }

    /**
     * `getInstance(con, name, mode, db)`: the instance registered under `name`, created on
     * first use. `local` is what the local preferences file of that name holds, `user` the
     * id of the signed-in Firebase user, if any. Only a creation needs a user: without one
     * it fails and registers nothing.
     */
    method GetInstance(name: string, local: map<string, PrefValue>, user: Option<string>)
      returns (r: Result<SharedFirebasePreferences>)
      modifies this`instances
      ensures name in old(instances) ==> r == Success(old(instances)[name]) && instances == old(instances)
      ensures name !in old(instances) && user.None? ==> r == Failure(NO_USER) && instances == old(instances)
      ensures name !in old(instances) && user.Some? ==>
        && r.Success? && fresh(r.value)
        && instances == old(instances)[name := r.value]
        && Success(r.value.root) == GetRoot(pathPattern, user, name)
        && r.value.cache == local && r.value.omittedKeys == [] && r.value.pushes == []
    {
      if name !in instances {
        var root := GetRoot(pathPattern, user, name);
        if root.Failure? {
          return Failure(root.error);
        }
        var prefs := new SharedFirebasePreferences(local, root.value);
        instances := instances[name := prefs];
      }
      return Success(instances[name]);
    }
  }

  /**
   * The registry is keyed by name alone: after the user changes, asking for the same name
   * returns the instance still bound to the first user's node.
   */
  method UserSwitchKeepsRoot(registry: InstanceRegistry, name: string, local: map<string, PrefValue>,
                             first: string, second: string)
    returns (a: SharedFirebasePreferences, b: SharedFirebasePreferences)
    requires name !in registry.instances
    modifies registry
    ensures a == b
    ensures Success(b.root) == GetRoot(old(registry.pathPattern), Some(first), name)
  {
    var r1 := registry.GetInstance(name, local, Some(first));
    var r2 := registry.GetInstance(name, local, Some(second));
    a, b := r1.value, r2.value;
  }
}

=== FILE: Values.dfy ===
/**
 * The runtime values that travel between the local SharedPreferences cache and the
 * Firebase node: what `getAll()` yields on the way out (PushTask) and what
 * `DataSnapshot.getValue()` yields on the way in (PullTask.onDataChange).
 */
module Values {
  import opened Wrappers

  newtype Int32 = x: int | -0x8000_0000 <= x < 0x8000_0000
  newtype Int64 = x: int | -0x8000_0000_0000_0000 <= x < 0x8000_0000_0000_0000

  /**
   * The Java runtime class of a value, as the `instanceof` tests of the source see it.
   * `Float` keeps the IEEE-754 bit pattern and is never interpreted.
   * `Other` stands for every class neither side recognises (Double, a nested Map, ...).
   */
  datatype Value =
    | Str(s: string)
    | Long(l: Int64)
    | Int(i: Int32)
    | Bool(b: bool)
    | Float(bits: bv32)
    | StringSet(elems: set<string>)
    | List(items: seq<string>)
    | Null
    | Other

  /** The values a SharedPreferences file can hold: the six typed `put` methods. */
  predicate Storable(v: Value) {
    v.Str? || v.Long? || v.Int? || v.Bool? || v.Float? || v.StringSet?
  }

  type PrefValue = v: Value | Storable(v) witness Str([])

  /** No element of `l` occurs twice. */
  predicate Distinct(l: seq<string>) {
    forall i, j :: 0 <= i < j < |l| ==> l[i] != l[j]
  }

  /** `l` is `new ArrayList<>(s)`: every element of `s` once, in some order, and nothing else. */
  predicate Listing(l: seq<string>, s: set<string>) {
    Distinct(l) && (forall x :: x in l ==> x in s) && (forall x :: x in s ==> x in l)
  }

  /**
   * `r` is what PushTask hands to Firebase for the cached value `v`: a string set
   * becomes a list of its elements, every other value passes through unchanged.
   */
  predicate Encodes(v: PrefValue, r: Value) {
    match v
    case StringSet(s) => r.List? && Listing(r.items, s)
    case _ => r == v
  }

  /** The classes PullTask.onDataChange tests for, in the order it tests them. */
  predicate Recognised(v: Value) {
    v.Str? || v.Long? || v.Int? || v.Bool? || v.Float? || v.List?
  }

  /**
   * The `instanceof` chain of PullTask.onDataChange: the value to put into the cache,
   * or None when the child is skipped. A List becomes the set of its elements.
   */
  function Decode(v: Value): (r: Option<PrefValue>)
    ensures r.Some? <==> Recognised(v)
    ensures r.Some? && !v.List? ==> r.value == v
    ensures v.List? ==> r == Some(StringSet(set x | x in v.items))
  {
    match v
    case Str(_) => Some(v)
    case Long(_) => Some(v)
    case Int(_) => Some(v)
    case Bool(_) => Some(v)
    case Float(_) => Some(v)
    case List(items) => Some(StringSet(set x | x in items))
    case _ => None
  }

  /** Round trip of the codec: decoding what was pushed gives back the cached value. */
  lemma DecodeEncoded(v: PrefValue, r: Value)
    requires Encodes(v, r)
    ensures Decode(r) == Some(v)
  {
    if v.StringSet? {
      assert (set x | x in r.items) == v.elems;
    }
  }

  /** A listing has exactly as many entries as the set it lists. */
  lemma {:induction false} ListingLength(l: seq<string>, s: set<string>)
    requires Listing(l, s)
    ensures |l| == |s|
  {
    if l != [] {
      var t := l[1..];
      assert forall x :: x in t <==> x in s - {l[0]} by {
        forall x ensures x in t <==> x in s - {l[0]} {
          if x in t {
            var k :| 0 <= k < |t| && t[k] == x;
            assert l[k + 1] == x;
          }
          if x in l && x != l[0] {
            var k :| 0 <= k < |l| && l[k] == x;
            assert k != 0;
            assert t[k - 1] == x;
          }
        }
      }
      ListingLength(t, s - {l[0]});
    }
  }

  /**
   * Decoding a list drops duplicates: the resulting set is never larger than the list,
   * and it is exactly as large when the list has no duplicates.
   */
  lemma {:induction false} DecodeListSize(l: seq<string>)
    ensures Decode(List(l)).value.elems == set x | x in l
    ensures |set x | x in l| <= |l|
    ensures Distinct(l) ==> |set x | x in l| == |l|
  {
    if l != [] {
      var t := l[1..];
      DecodeListSize(t);
      var st := set x | x in t;
      assert (set x | x in l) == {l[0]} + st by {
        forall x ensures x in l <==> x == l[0] || x in t {
          if x in l && x != l[0] {
            var k :| 0 <= k < |l| && l[k] == x;
            assert t[k - 1] == x;
          }
        }
      }
      if Distinct(l) {
        assert Distinct(t) by {
          forall i, j | 0 <= i < j < |t| ensures t[i] != t[j] {
            assert t[i] == l[i + 1] && t[j] == l[j + 1];
          }
        }
      }
    }
  }
}

=== FILE: Wrappers.dfy ===
/** Failure-carrying wrappers shared by the other modules. */
module Wrappers {

  datatype Option<+T> = None | Some(value: T)

  /** A Java exception, reduced to its class name and message. */
  datatype Exception = Exception(name: string, message: string)

  /** A value, or the exception the Java code throws instead of returning it. */
  datatype Result<+T> = Success(value: T) | Failure(error: Exception)
}
